=== FILE: README.md ===
# Excel-style column filters for a Streamlit table, in Dafny

This project models the filter-state engine of `Table` in
`streamlit_excel/__init__.py`. A `Table` wraps a data frame. For each column
it keeps one filter entry: a select-all toggle and a list of selected
options. The filtered view is the base rows whose value in every column with
a non-empty selection is one of the selected options. Each column's filter
form offers the distinct values of that column in the current view. The
search box narrows them case-insensitively. The checkboxes start ticked or
clear according to the toggle. The form's Apply, All and Clear buttons and
the panel's Reset button change the entries.

Modules, leaf first:

- `Seqs` (`seqs.dfy`): order-preserving filtering, which stands for pandas
  boolean-mask row selection, and first-occurrence de-duplication, which
  stands for `Series.unique()`. Also the subsequence relation.
- `Text` (`text.dfy`): ASCII lower-casing and the substring test behind
  `query.lower() in option.lower()`.
- `Tables` (`tables.dfy`): rows as `map<string, string>`. A `DataFrame` is a
  header plus rows. Its subset type `Frame` holds the rectangular ones, whose
  row keys are exactly the header. The one error is
  `MissingColumn`, pandas' `KeyError` for an unknown column.
- `Filters` (`filters.dfy`): the filter state `map<string, Entry>`, the
  declarative view, the loop of `Table.view` as a method, and the view lemmas.
- `Options` (`options.dfy`): the options of a column, the search, and the
  checkbox states with the resulting selection.
- `Commands` (`commands.dfy`): entry creation and the Apply, All, Clear and
  Reset transitions. Apply, All and Clear return the new state and a signal
  (`Proceed`, `Rerun`, `Warn`) in place of `st.rerun()` and `st.warning`.
  Entry creation and Reset return only the state; Reset asks for no rerun, as
  at line 87.
- `Panel` (`panel.dfy`): `_add_filter` for one column and
  `show_filter_panel` for a list of columns.

User input is a parameter. For each column the run receives an
`Interaction`: the search text, the set of options whose checkbox the user
clicked, and the form button pressed. The panel also receives whether Reset
was pressed.

Points where the code may surprise a reader, and the model follows the code:

- `view` is recomputed on every access.
- Clear does not remove the column's entry. It resets it to
  `(select_all_state = True, selected_options = [])`.
- Reset sets `data` to `{}` and does not request a rerun.
- The All button flips `select_all_state`. It does not change the view,
  only the default of the checkboxes.

## Model

| member | source | states |
|---|---|---|
| Filters.View | streamlit_excel/__init__.py:91-97 | A row is in the view iff it is a base row whose value, in every column with a non-empty selection, is one of the selected options. A passing row appears as many times as in the base, a failing one never. The view keeps base order (a subsequence). It fails iff some restricting column is missing from the table. |
| Filters.ComputeView | streamlit_excel/__init__.py:93-97 | The loop of `Table.view` narrows a copy of the base rows one entry at a time. It visits the entries in an arbitrary order and always returns the declarative view, so the result does not depend on the order in which entries are visited. |
| Filters.UnrestrictedStateShowsAll | streamlit_excel/__init__.py:94-96 | If no entry has a non-empty selection (the empty state, or only fresh entries), the view is the whole table. |
| Filters.NeutralEntry | streamlit_excel/__init__.py:95 | An entry with an empty selection filters exactly like no entry for that column, and it does not affect whether the view can be computed. |
| Filters.NarrowingShrinksView | streamlit_excel/__init__.py:94-96 | Suppose a state restricts every column the old state restricts, to a subset of its options. Then its view is the old view filtered again: an order-preserving subsequence that is never longer. |
| Filters.SameSelectionsSameView | streamlit_excel/__init__.py:94-96 | The view depends only on the selected options, never on the select-all toggles. |
| Filters.ReselectFromView | streamlit_excel/__init__.py:76-77 | Storing in column c a non-empty selection of values that occur in the current view keeps exactly the view rows whose value in c is selected. Afterwards the values of c in the view are exactly the selection. |
| Seqs.Filter | streamlit_excel/__init__.py:96 | Row selection by a mask returns an order-preserving subsequence, no longer than the input. A value occurs in it iff it occurs in the input and satisfies the predicate. |
| Seqs.FilterMultiplicity | streamlit_excel/__init__.py:96 | Row selection keeps each element that satisfies the predicate as many times as the input holds it, and drops every other. |
| Seqs.Unique | streamlit_excel/__init__.py:44 | De-duplication returns each value of the input exactly once, with no duplicates, ordered by first occurrence. |
| Seqs.FilterNoDuplicates | streamlit_excel/__init__.py:54 | Filtering a duplicate-free list leaves it duplicate-free. |
| Text.Lower | streamlit_excel/__init__.py:54 | Lower-casing keeps the length and leaves no upper-case letter. Other characters are unchanged, and each upper-case letter maps to its lower-case partner. |
| Text.LowerIdempotent | streamlit_excel/__init__.py:54 | Lower-casing twice is the same as lower-casing once. |
| Text.ContainsIff | streamlit_excel/__init__.py:54 | The substring test holds iff the needle occurs at some position of the haystack. |
| Text.EmptyOccurs | streamlit_excel/__init__.py:54 | The empty query occurs in every option. |
| Text.MatchesIgnoresCase | streamlit_excel/__init__.py:54 | A match does not change if either the option or the query is lower-cased first. |
| Text.MatchesMeansOccurs | streamlit_excel/__init__.py:54 | An option matches iff its lower-cased text contains the lower-cased query at some position. |
| Options.OptionsOf | streamlit_excel/__init__.py:44 | The options of a column are duplicate-free. A value is an option iff some row of the view holds it. The options are ordered by the first row holding each one. |
| Options.Search | streamlit_excel/__init__.py:53-54 | Search keeps the options, in order, that contain the query case-insensitively, or all of them when there is no query. It keeps an option list duplicate-free. |
| Options.EmptyQueryKeepsAll | streamlit_excel/__init__.py:53-54 | An empty query keeps every option. |
| Options.Checks | streamlit_excel/__init__.py:58-60 | One checkbox per displayed option, in display order. Each box starts at the select-all toggle, and a box is ticked iff it starts ticked and was not clicked, or starts clear and was clicked. |
| Options.ChecksReachAll | streamlit_excel/__init__.py:58-60 | With distinct options, every pattern of ticks is produced by some set of clicks, so the checkbox model excludes no submission the form allows. |
| Options.Selection | streamlit_excel/__init__.py:61 | The selection is the ticked options in display order: a subsequence of the displayed options containing every ticked one and nothing else. |
| Options.DefaultSelection | streamlit_excel/__init__.py:59-61 | Without clicks, the selection is every displayed option when the toggle is on and none when it is off. |
| Commands.Touch | streamlit_excel/__init__.py:38-42 | Showing a column's filter gives the column an entry. An existing entry is kept. A new column gets `(True, [])`. No other entry changes. |
| Commands.TouchKeepsView | streamlit_excel/__init__.py:38-42 | Creating a fresh entry does not change the view or whether it can be computed. |
| Commands.TouchAll | streamlit_excel/__init__.py:38-42 | Showing several filters with no command gives each listed column an entry. The keys afterwards are the old ones plus the listed columns. Old entries are kept, and every new one is `(True, [])`. |
| Commands.TouchAllKeepsView | streamlit_excel/__init__.py:38-42 | Showing any number of filters with no command changes neither the view nor whether it can be computed. |
| Commands.Apply | streamlit_excel/__init__.py:76-80 | A non-empty selection replaces only that column's selected options, keeps its toggle and requests a rerun. An empty selection leaves the state unchanged and warns "Please select at least one option.". |
| Commands.ApplyIdempotent | streamlit_excel/__init__.py:76-78 | Applying the same selection twice gives the same result as applying it once. |
| Commands.ApplyCommutes | streamlit_excel/__init__.py:76-78 | Applying selections to two different columns gives the same state in either order. |
| Commands.ToggleAll | streamlit_excel/__init__.py:68-70 | All negates the column's toggle, keeps its selection and all other entries, and requests a rerun. |
| Commands.ToggleAllTwice | streamlit_excel/__init__.py:68-69 | Pressing All twice restores the state. |
| Commands.ToggleAllKeepsView | streamlit_excel/__init__.py:68-69 | All never changes the view. |
| Commands.Clear | streamlit_excel/__init__.py:72-75 | Clear sets the column's entry to exactly `(True, [])`, keeps all other entries and requests a rerun. |
| Commands.ClearLiftsColumn | streamlit_excel/__init__.py:72-74 | After Clear the column no longer restricts: the view equals the view without any entry for the column. |
| Commands.Reset | streamlit_excel/__init__.py:86-87 | Reset leaves no entry for any column. |
| Commands.ResetShowsAll | streamlit_excel/__init__.py:86-87 | After Reset, as in the initial state, the view is the whole table. |
| Panel.AddFilter | streamlit_excel/__init__.py:35-80 | One column's form succeeds iff every restricting column and the column itself exist. Then the column has an entry, the state stays resolvable, and only that column's entry can change. The displayed options are an order-preserving, duplicate-free subsequence of the column's options in the current view. A value is displayed iff it occurs in the column in the current view and matches the query. The selection is the displayed options, in order, whose box differs from the toggle by a click. No button keeps the state with the fresh entry and proceeds. Apply with a non-empty selection stores exactly that selection and reruns; with an empty one it warns and changes nothing. All flips the toggle and reruns. Clear stores `(True, [])` and reruns. |
| Panel.UntouchedFilterDefaults | streamlit_excel/__init__.py:44-61 | With no query or an empty one, no clicks and no button: the options shown are all distinct values of the column in the view, the selection is all or none by the toggle, and only the entry creation changes the state. |
| Panel.AppliedSelectionNarrowsView | streamlit_excel/__init__.py:44-77 | Applying a non-empty selection taken from the displayed options gives the old view filtered to the selected values. That view is never empty, and afterwards the column's own options are exactly the selection. |
| Panel.AddFilters | streamlit_excel/__init__.py:88-89 | Showing the listed filters in order succeeds when all columns exist. It keeps the state resolvable. It gives every listed column an entry unless a rerun stopped it, and it never changes or adds entries of unlisted columns. How the run ends is stated by the four rows that follow. |
| Panel.QuietRun | streamlit_excel/__init__.py:88-89 | A run of the listed filters fails unless every restricting column and the first listed column exist; `_add_filter`'s `KeyError` ends the run. A run that ends with no rerun found every listed column. Its state is exactly the entry creation for the listed columns, so the view is unchanged. |
| Panel.RerunRun | streamlit_excel/__init__.py:68-79 | A run that ends in a rerun stopped at the first column whose form asks for one. The form of every earlier column, each shown with the entries the columns before it created, succeeded without a rerun. The stopping column's form, shown the same way, asked for the rerun, and its state is the run's final state. |
| Panel.FailedRun | streamlit_excel/__init__.py:88-89 | A run that fails stopped at a column the run reached. The forms before it succeeded without a rerun, and that column's form failed. A missing column after a rerun is never looked up, so it cannot make the run fail. |
| Panel.ToggleOrClearReruns | streamlit_excel/__init__.py:68-75 | If All or Clear is pressed in any listed column, a successful run ends in a rerun. |
| Panel.ShowFilterPanel | streamlit_excel/__init__.py:82-89 | After Reset only listed columns have entries. Without Reset, unlisted entries are unchanged. The run succeeds, keeping the state resolvable, when all listed columns exist. How the panel ends is stated by the next row. |
| Panel.PanelRunEnds | streamlit_excel/__init__.py:82-89 | The panel ends as the run of its filters from the wiped state after Reset, or from the current state otherwise. This covers the no-rerun, rerun and failure cases above, so the stopping column and the final state are pinned down in each. After Reset a run with no rerun shows the whole table. |
| Panel.NoButtonsKeepView | streamlit_excel/__init__.py:88-89 | A run with no form button pressed does not change the view and does not request a rerun. |
| Panel.ResetPanelShowsAll | streamlit_excel/__init__.py:86-89 | Pressing only Reset shows the whole table again. |

## Left out

- Rendering is not modelled: `st.markdown`, the CSS of `_add_css`, `st.form`, `st.container`, `st.columns`, `st.sidebar`, `st.expander` and checkbox widget identity. They are presentation with no behaviour to state.
- `st.rerun()` is not modelled as control flow. It becomes the `Rerun` signal, and a run of the panel stops at the first one.
- `st.warning` becomes the `Warn` signal carrying its message.
- pandas is not modelled. `copy`, boolean indexing, `isin` and `unique` are replaced by sequence filtering and de-duplication over rows.
- Text.Lower: folds only ASCII `A`-`Z`. Python's `str.lower()` folds all of Unicode.
- Cell values are strings only. A non-string cell would make `option.lower()` raise in Python, and that path is not modelled.
- Panel.AddFilter: a missing column yields `MissingColumn` without the column's name or the state at the time of the error. pandas' `KeyError` names the column. In Python the entry created before the error stays, but it is a fresh entry and never restricts.
- Panel.ShowFilterPanel: a run that fails returns only `MissingColumn` and no state. Python keeps the effects made before the `KeyError` on `self.data`: the Reset wipe of line 87, which does change the view, and the fresh entries that lines 38-42 gave to earlier columns. The model promises nothing about the state after a failed run.
- A column listed twice in one panel makes Streamlit reject the duplicate widget key. That case is not modelled.
- `setup.py` is packaging metadata and has no logic to model.
- Temporal filters and view caching are not modelled because the code has neither.

=== FILE: commands.dfy ===
/** The commands of a column's filter form (Apply, All, Clear), the panel's
    Reset button and the entry a column gets when first shown. Each is a pure
    transition; the host's rerun request becomes the returned signal. */
module Commands {
  import opened Seqs
  import opened Tables
  import opened Filters

  /** What the host is asked to do after a command: carry on rendering, rerun
      the script, or show a warning. */
  datatype Signal = Proceed | Rerun | Warn(message: string)

  /** A command's result: the new filter state and the signal for the host. */
  datatype Outcome = Outcome(state: State, signal: Signal)

  const SelectAtLeastOne: string := "Please select at least one option."

  /** Give column `c` a fresh entry unless it already has one. */
  function Touch(s: State, c: string): (r: State)
    ensures r.Keys == s.Keys + {c}
    ensures r[c] == if c in s then s[c] else Fresh
    ensures forall d :: d in s ==> r[d] == s[d]
  {
    if c in s then s else s[c := Fresh]
  }

  /** Apply: a non-empty selection replaces the column's selected options and
      requests a rerun; an empty one changes nothing and warns. */
  function Apply(s: State, c: string, selection: seq<string>): (r: Outcome)
    requires c in s
    ensures |selection| == 0 ==> r == Outcome(s, Warn(SelectAtLeastOne))
    ensures |selection| > 0 ==> r.signal == Rerun && r.state.Keys == s.Keys
    ensures |selection| > 0 ==> r.state[c] == Entry(s[c].selectAll, selection)
    ensures forall d :: d in s && d != c ==> r.state[d] == s[d]
  {
    if |selection| > 0 then Outcome(s[c := s[c].(selected := selection)], Rerun)
    else Outcome(s, Warn(SelectAtLeastOne))
  }

  /** All: flip the column's select-all toggle and request a rerun. */
  function ToggleAll(s: State, c: string): (r: Outcome)
    requires c in s
    ensures r.signal == Rerun && r.state.Keys == s.Keys
    ensures r.state[c].selectAll == !s[c].selectAll && r.state[c].selected == s[c].selected
    ensures forall d :: d in s && d != c ==> r.state[d] == s[d]
  {
    Outcome(s[c := s[c].(selectAll := !s[c].selectAll)], Rerun)
  }

  /** Clear: return the column's entry to its fresh state and request a rerun. */
  function Clear(s: State, c: string): (r: Outcome)
    requires c in s
    ensures r.signal == Rerun && r.state.Keys == s.Keys
    ensures r.state[c] == Fresh
    ensures forall d :: d in s && d != c ==> r.state[d] == s[d]
  {
    Outcome(s[c := Fresh], Rerun)
  }

  /** Reset: drop every entry. */
  function Reset(): (r: State)
    ensures forall c :: c !in r
  {
    map[]
  }

  /** Showing a column's filter for the first time does not change the view,
      nor whether it can be computed. */
  lemma TouchKeepsView(rows: seq<Row>, s: State, c: string)
    ensures Filtered(rows, Touch(s, c)) == Filtered(rows, s)
    ensures forall header :: Resolves(header, Touch(s, c)) <==> Resolves(header, s)
  {
    if c !in s {
      NeutralEntry(rows, s, c, Fresh);
      assert s - {c} == s;
    }
  }

  /** Give each column of `cs`, in order, a fresh entry unless it already has
      one: what showing those filters does when no command is run. */
  function TouchAll(s: State, cs: seq<string>): (r: State)
    decreases |cs|
    ensures r.Keys == s.Keys + (set c | c in cs)
    ensures forall d :: d in s ==> r[d] == s[d]
    ensures forall d :: d in r && d !in s ==> r[d] == Fresh
  {
    if |cs| == 0 then s
    else
      assert (set c | c in cs) == {cs[0]} + (set c | c in cs[1..]);
      TouchAll(Touch(s, cs[0]), cs[1..])
  }

  /** The entries created for a non-empty prefix are those created for the
      first column and then for the rest of the prefix. */
  lemma TouchAllPrefix(s: State, cs: seq<string>, j: int)
    requires 0 < j <= |cs|
    ensures TouchAll(s, cs[..j]) == TouchAll(Touch(s, cs[0]), cs[1..][..j - 1])
  {
    var prefix := cs[..j];
    assert prefix[0] == cs[0] && prefix[1..] == cs[1..][..j - 1];
  }

  /** Showing any number of filters without a command changes neither the view
      nor whether it can be computed. */
  lemma {:induction false} TouchAllKeepsView(rows: seq<Row>, s: State, cs: seq<string>)
    decreases |cs|
    ensures Filtered(rows, TouchAll(s, cs)) == Filtered(rows, s)
    ensures forall header :: Resolves(header, TouchAll(s, cs)) <==> Resolves(header, s)
  {
    if |cs| > 0 {
      TouchKeepsView(rows, s, cs[0]);
      TouchAllKeepsView(rows, Touch(s, cs[0]), cs[1..]);
    }
  }

  /** Applying the same selection twice is applying it once. */
  lemma ApplyIdempotent(s: State, c: string, selection: seq<string>)
    requires c in s
    ensures Apply(Apply(s, c, selection).state, c, selection) == Apply(s, c, selection)
  {
  }

  /** Applications to different columns commute. */
  lemma ApplyCommutes(s: State, c: string, x: seq<string>, d: string, y: seq<string>)
    requires c in s && d in s && c != d
    ensures Apply(Apply(s, c, x).state, d, y).state == Apply(Apply(s, d, y).state, c, x).state
  {
  }

  /** Pressing All twice restores the original state. */
  lemma ToggleAllTwice(s: State, c: string)
    requires c in s
    ensures ToggleAll(ToggleAll(s, c).state, c).state == s
  {
  }

  /** All changes only the default of the checkboxes, never the view. */
  lemma ToggleAllKeepsView(rows: seq<Row>, s: State, c: string)
    requires c in s
    ensures Filtered(rows, ToggleAll(s, c).state) == Filtered(rows, s)
  {
    SameSelectionsSameView(rows, ToggleAll(s, c).state, s);
  }

  /** After Clear the column no longer restricts: the view is the one obtained
      without any entry for it. */
  lemma ClearLiftsColumn(rows: seq<Row>, s: State, c: string)
    requires c in s
    ensures Filtered(rows, Clear(s, c).state) == Filtered(rows, s - {c})
    ensures !Restricts(Clear(s, c).state[c])
  {
    NeutralEntry(rows, s, c, Fresh);
  }

  /** After Reset, and in the initial state, the view is the whole table. */
  lemma ResetShowsAll(rows: seq<Row>)
    ensures Filtered(rows, Reset()) == rows
  {
    UnrestrictedStateShowsAll(rows, Reset());
  }
}

=== FILE: filters.dfy ===
/** The per-column filter state of a `Table` and the filtered view it
    determines (the `view` property of streamlit_excel/__init__.py). */
module Filters {
  import opened Seqs
  import opened Tables

  /** One column's filter: the "All" toggle that sets the default of every
      checkbox, and the applied selection, where empty means "no restriction". */
  datatype Entry = Entry(selectAll: bool, selected: seq<string>)

  /** Filter entries by column name (`Table.data`). */
  type State = map<string, Entry>

  /** The entry a column gets the first time its filter is shown. */
  const Fresh: Entry := Entry(true, [])

  /** Only a non-empty selection restricts rows. */
  predicate Restricts(e: Entry)
  {
    |e.selected| > 0
  }

  /** Column `c`'s entry lets `row` through. */
  predicate Admits(e: Entry, c: string, row: Row)
  {
    !Restricts(e) || (c in row && row[c] in e.selected)
  }

  /** `row` passes the filters of the columns in `cols`. */
  predicate PassesOn(row: Row, s: State, cols: set<string>)
  {
    forall c :: c in cols && c in s ==> Admits(s[c], c, row)
  }

  /** `row` passes every filter of `s`. */
  predicate Passes(row: Row, s: State)
  {
    PassesOn(row, s, s.Keys)
  }

  /** The rows that pass every filter, in their original order. */
  function Filtered(rows: seq<Row>, s: State): seq<Row>
  {
    Filter(rows, (row: Row) => Passes(row, s))
  }

  /** Every column that restricts rows exists in the table. */
  predicate Resolves(header: set<string>, s: State)
  {
    forall c :: c in s && Restricts(s[c]) ==> c in header
  }

  /** The filtered table: the base rows whose value in every restricting column
      is one of that column's selected options, in base order. A restricting
      column the table lacks raises a missing-column error. */
  function View(t: Frame, s: State): (r: Result<seq<Row>>)
    ensures r.Success? <==> forall c :: c in s && Restricts(s[c]) ==> c in t.header
    ensures r.Success? ==> IsSubsequence(r.value, t.rows)
    ensures r.Success? ==> forall row ::
      row in r.value <==>
        row in t.rows && forall c :: c in s && Restricts(s[c]) ==> c in row && row[c] in s[c].selected
    ensures r.Success? ==> forall row ::
      multiset(r.value)[row] == if Passes(row, s) then multiset(t.rows)[row] else 0
  {
    FilterMultiplicity(t.rows, (row: Row) => Passes(row, s));
    if Resolves(t.header, s) then Success(Filtered(t.rows, s)) else Failure(MissingColumn)
  }

  /** The loop of `Table.view`: start from the base rows and, one entry at a time in
      whatever order the entries are visited, keep the rows whose value is in a
      non-empty selection. Every visiting order gives the declarative view. */
  method ComputeView(t: Frame, s: State) returns (r: Result<seq<Row>>)
    ensures r == View(t, s)
  {
    var df := t.rows;
    var pending := s.Keys;
    ghost var done: set<string> := {};
    FilterKeepsAll(t.rows, (row: Row) => PassesOn(row, s, {}));
    while pending != {}
      invariant pending + done == s.Keys && pending !! done
      invariant df == Filter(t.rows, (row: Row) => PassesOn(row, s, done))
      invariant forall d :: d in done && Restricts(s[d]) ==> d in t.header
      decreases pending
    {
      var c :| c in pending;
      var e := s[c];
      if Restricts(e) {
        if c !in t.header {
          return Failure(MissingColumn);
        }
        df := Filter(df, (row: Row) => c in row && row[c] in e.selected);
        VisitRestricting(t.rows, s, done, c, e.selected);
      } else {
        VisitNeutral(t.rows, s, done, c);
      }
      pending := pending - {c};
      done := done + {c};
    }
    FilterExt(t.rows, (row: Row) => PassesOn(row, s, done), (row: Row) => Passes(row, s));
    return Success(df);
  }

  /** One loop step on a restricting entry: filtering the rows that pass the
      visited columns by column `c` leaves the rows that pass `c` as well. */
  lemma VisitRestricting(rows: seq<Row>, s: State, done: set<string>, c: string, sel: seq<string>)
    requires c in s && sel == s[c].selected && |sel| > 0
    ensures Filter(Filter(rows, (row: Row) => PassesOn(row, s, done)), (row: Row) => c in row && row[c] in sel)
         == Filter(rows, (row: Row) => PassesOn(row, s, done + {c}))
  {
    FilterFilter(rows,
      (row: Row) => PassesOn(row, s, done),
      (row: Row) => c in row && row[c] in sel,
      (row: Row) => PassesOn(row, s, done + {c}));
  }

  /** One loop step on an entry with an empty selection changes nothing. */
  lemma VisitNeutral(rows: seq<Row>, s: State, done: set<string>, c: string)
    requires c in s && !Restricts(s[c])
    ensures Filter(rows, (row: Row) => PassesOn(row, s, done))
         == Filter(rows, (row: Row) => PassesOn(row, s, done + {c}))
  {
    FilterExt(rows, (row: Row) => PassesOn(row, s, done), (row: Row) => PassesOn(row, s, done + {c}));
  }

  /** Filters that restrict nothing keep every row: the empty state, the state
      after Reset and a state of fresh entries all show the whole table. */
  lemma UnrestrictedStateShowsAll(rows: seq<Row>, s: State)
    requires forall c :: c in s ==> !Restricts(s[c])
    ensures Filtered(rows, s) == rows
  {
    FilterKeepsAll(rows, (row: Row) => Passes(row, s));
  }

  /** An entry with an empty selection filters exactly as if the column had no
      entry at all. */
  lemma NeutralEntry(rows: seq<Row>, s: State, c: string, e: Entry)
    requires !Restricts(e)
    ensures Filtered(rows, s[c := e]) == Filtered(rows, s - {c})
    ensures forall header :: Resolves(header, s[c := e]) <==> Resolves(header, s - {c})
  {
    forall row: Row
      ensures Passes(row, s[c := e]) == Passes(row, s - {c})
    {
      assert Admits(e, c, row);
      if Passes(row, s - {c}) {
        forall d | d in s || d == c
          ensures Admits(s[c := e][d], d, row)
        {
          if d != c {
            assert d in s - {c};
          }
        }
      }
      if Passes(row, s[c := e]) {
        forall d | d in s - {c}
          ensures Admits((s - {c})[d], d, row)
        {
          assert d in s[c := e];
        }
      }
    }
    FilterExt(rows, (row: Row) => Passes(row, s[c := e]), (row: Row) => Passes(row, s - {c}));
  }

  /** `s2` restricts at least as much as `s1`: every column `s1` restricts is
      restricted by `s2` to a subset of its options. */
  predicate Narrows(s2: State, s1: State)
  {
    forall c :: c in s1 && Restricts(s1[c]) ==>
      c in s2 && Restricts(s2[c]) && forall v :: v in s2[c].selected ==> v in s1[c].selected
  }

  /** Narrowing the filters can only remove rows: the narrower view is the wider
      view filtered again, hence an order-preserving subsequence no longer than it. */
  lemma NarrowingShrinksView(rows: seq<Row>, s2: State, s1: State)
    requires Narrows(s2, s1)
    ensures Filtered(rows, s2) == Filter(Filtered(rows, s1), (row: Row) => Passes(row, s2))
    ensures IsSubsequence(Filtered(rows, s2), Filtered(rows, s1))
    ensures |Filtered(rows, s2)| <= |Filtered(rows, s1)|
  {
    forall row | Passes(row, s2)
      ensures Passes(row, s1)
    {
      forall c | c in s1
        ensures Admits(s1[c], c, row)
      {
        if Restricts(s1[c]) {
          assert Admits(s2[c], c, row);
        }
      }
    }
    FilterNarrows(rows, (row: Row) => Passes(row, s1), (row: Row) => Passes(row, s2));
  }

  /** The view depends only on the selections: two states that hold the same
      selections for the same columns, whatever their "All" toggles, filter alike. */
  lemma SameSelectionsSameView(rows: seq<Row>, s1: State, s2: State)
    requires s1.Keys == s2.Keys
    requires forall c :: c in s1 ==> s1[c].selected == s2[c].selected
    ensures Filtered(rows, s1) == Filtered(rows, s2)
  {
    forall row: Row
      ensures Passes(row, s1) == Passes(row, s2)
    {
      assert forall c :: c in s1 ==> Admits(s1[c], c, row) == Admits(s2[c], c, row);
    }
    FilterExt(rows, (row: Row) => Passes(row, s1), (row: Row) => Passes(row, s2));
  }

  /** Replacing column `c`'s selection by values that all occur in the current
      view: a row passes the new state exactly when it passes the old one and
      its value in `c` is selected. */
  lemma ReselectPointwise(rows: seq<Row>, s1: State, c: string, sel: seq<string>, row: Row)
    requires c in s1 && |sel| > 0
    requires forall v :: v in sel ==> exists w :: w in Filtered(rows, s1) && c in w && w[c] == v
    ensures Passes(row, s1[c := s1[c].(selected := sel)]) <==> Passes(row, s1) && c in row && row[c] in sel
  {
    var s2 := s1[c := s1[c].(selected := sel)];
    if Passes(row, s2) {
      assert Admits(s2[c], c, row);
      var w :| w in Filtered(rows, s1) && c in w && w[c] == row[c];
      assert Admits(s1[c], c, w);
      forall d | d in s1
        ensures Admits(s1[d], d, row)
      {
        if d != c {
          assert Admits(s2[d], d, row);
        }
      }
    }
    if Passes(row, s1) && c in row && row[c] in sel {
      forall d | d in s2
        ensures Admits(s2[d], d, row)
      {
        if d != c {
          assert Admits(s1[d], d, row);
        }
      }
    }
  }

  /** Selecting, in column `c`, a non-empty set of values that occur in the
      current view keeps exactly the rows of that view whose value is selected;
      afterwards the values of `c` in the view are exactly the selection. */
  lemma ReselectFromView(rows: seq<Row>, s1: State, c: string, sel: seq<string>)
    requires c in s1 && |sel| > 0
    requires forall v :: v in sel ==> exists w :: w in Filtered(rows, s1) && c in w && w[c] == v
    ensures var after := Filtered(rows, s1[c := s1[c].(selected := sel)]);
      && after == Filter(Filtered(rows, s1), (row: Row) => c in row && row[c] in sel)
      && forall v :: v in sel <==> exists row :: row in after && c in row && row[c] == v
  {
    var s2 := s1[c := s1[c].(selected := sel)];
    forall row | row in rows
      ensures Passes(row, s2) == (Passes(row, s1) && (c in row && row[c] in sel))
    {
      ReselectPointwise(rows, s1, c, sel, row);
    }
    FilterFilter(rows,
      (row: Row) => Passes(row, s1),
      (row: Row) => c in row && row[c] in sel,
      (row: Row) => Passes(row, s2));
    var after := Filtered(rows, s2);
    forall v | v in sel
      ensures exists row :: row in after && c in row && row[c] == v
    {
      var w :| w in Filtered(rows, s1) && c in w && w[c] == v;
      assert w in after;
    }
  }
}

=== FILE: options.dfy ===
/** The options a column's filter offers: the distinct values of the column in
    the current view, narrowed by the search box, each with a checkbox whose
    initial state follows the column's "All" toggle. */
module Options {
  import opened Seqs
  import opened Text
  import opened Tables

  /** The distinct values of column `c` in `view`, each once, ordered by the
      first row that holds them (`view[c].unique()`). */
  function OptionsOf(view: seq<Row>, c: string): (r: seq<string>)
    requires HasColumn(view, c)
    ensures NoDuplicates(r)
    ensures forall v :: v in r <==> v in ColumnValues(view, c)
    ensures forall v :: v in r <==> exists i :: 0 <= i < |view| && view[i][c] == v
    ensures forall i, j :: 0 <= i < j < |r| ==>
      IndexOf(ColumnValues(view, c), r[i]) < IndexOf(ColumnValues(view, c), r[j])
  {
    var values := ColumnValues(view, c);
    assert forall i :: 0 <= i < |view| ==> values[i] == view[i][c];
    Unique(values)
  }

  /** The options kept by the search box: with no query every option, otherwise
      those containing the query case-insensitively, in the same order. */
  function Search(options: seq<string>, query: Option<string>): (r: seq<string>)
    ensures IsSubsequence(r, options)
    ensures forall o :: o in r <==> o in options && (query.Some? ==> Matches(o, query.value))
    ensures NoDuplicates(options) ==> NoDuplicates(r)
  {
    match query
    case None =>
      SubsequenceRefl(options);
      options
    case Some(q) =>
      FilterNoDuplicates(options, (o: string) => Matches(o, q));
      Filter(options, (o: string) => Matches(o, q))
  }

  /** An empty query keeps every option. */
  lemma EmptyQueryKeepsAll(options: seq<string>)
    ensures Search(options, Some("")) == options
  {
    forall o | o in options
      ensures Matches(o, "")
    {
      assert Lower("") == "";
      EmptyOccurs(Lower(o));
    }
    FilterKeepsAll(options, (o: string) => Matches(o, ""));
  }

  /** The checkbox states at submission: each starts as `selectAll` and the
      options in `flipped` are the ones the user clicked. */
  function Checks(displayed: seq<string>, selectAll: bool, flipped: set<string>): (r: seq<bool>)
    ensures |r| == |displayed|
    ensures forall i :: 0 <= i < |r| ==> (r[i] <==> (displayed[i] in flipped) != selectAll)
  {
    seq(|displayed|, i requires 0 <= i < |displayed| => (displayed[i] in flipped) != selectAll)
  }

  /** Every combination of checkbox states can be reached by clicking: with
      distinct options, any pattern of ticks is produced by some set of clicks. */
  lemma ChecksReachAll(displayed: seq<string>, selectAll: bool, b: seq<bool>)
    requires NoDuplicates(displayed) && |b| == |displayed|
    ensures exists flipped: set<string> :: Checks(displayed, selectAll, flipped) == b
  {
    var flipped := set i | 0 <= i < |displayed| && b[i] != selectAll :: displayed[i];
    var r := Checks(displayed, selectAll, flipped);
    forall i | 0 <= i < |r|
      ensures r[i] == b[i]
    {
      if displayed[i] in flipped {
        var j :| 0 <= j < |displayed| && b[j] != selectAll && displayed[j] == displayed[i];
        assert j == i;
      }
    }
  }

  /** The ticked options, in display order. */
  function Selection(displayed: seq<string>, checks: seq<bool>): (r: seq<string>)
    requires |checks| == |displayed|
    ensures IsSubsequence(r, displayed)
    ensures forall i :: 0 <= i < |displayed| && checks[i] ==> displayed[i] in r
    ensures forall v :: v in r ==> exists i :: 0 <= i < |displayed| && checks[i] && displayed[i] == v
  {
    if |displayed| == 0 then []
    else
      var rest := Selection(displayed[1..], checks[1..]);
      assert forall i :: 1 <= i < |displayed| ==> displayed[i] == displayed[1..][i - 1] && checks[i] == checks[1..][i - 1];
      if checks[0] then
        assert ([displayed[0]] + rest)[1..] == rest;
        [displayed[0]] + rest
      else rest
  }

  /** Before the user clicks anything the selection is every displayed option
      when "All" is on and none when it is off. */
  lemma {:induction false} DefaultSelection(displayed: seq<string>, selectAll: bool)
    ensures Selection(displayed, Checks(displayed, selectAll, {})) == if selectAll then displayed else []
  {
    if |displayed| > 0 {
      assert Checks(displayed, selectAll, {})[1..] == Checks(displayed[1..], selectAll, {});
      DefaultSelection(displayed[1..], selectAll);
    }
  }
}

=== FILE: panel.dfy ===
/** One run of the filter panel: each listed column's filter is shown in turn
    (`_add_filter`), after an optional Reset of the whole state
    (`show_filter_panel`). A command that asks for a rerun ends the run. */
module Panel {
  import opened Seqs
  import opened Text
  import opened Tables
  import opened Filters
  import opened Options
  import opened Commands

  /** The form button pressed in a column's filter during this run, if any. */
  datatype Button = NoButton | ApplyButton | AllButton | ClearButton

  /** What the user did in one column's filter: the search text (absent when
      the search box returns nothing), the options whose checkbox they clicked,
      and the button they pressed. */
  datatype Interaction = Interaction(query: Option<string>, flipped: set<string>, button: Button)

  /** One rendered filter: the options shown, the ticked ones at submission,
      and the command's outcome. */
  datatype Step = Step(displayed: seq<string>, selection: seq<string>, outcome: Outcome)

  /** The rows of a view over a frame carry every column of the frame. */
  lemma ViewHasColumns(t: Frame, s: State, c: string)
    requires c in t.header
    ensures HasColumn(Filtered(t.rows, s), c)
  {
  }

  /** Show column `c`'s filter and handle its form. The column gets a fresh
      entry if it has none; its options are the distinct values of the column
      in the current view, narrowed by the search; the checkboxes start at the
      entry's select-all toggle; the pressed button picks the command. The view
      and the column lookup raise a missing-column error for unknown columns. */
  function AddFilter(t: Frame, s: State, c: string, ui: Interaction): (r: Result<Step>)
    ensures r.Success? <==> Resolves(t.header, s) && c in t.header
    ensures r.Success? ==> c in r.value.outcome.state && Resolves(t.header, r.value.outcome.state)
    ensures r.Success? ==> r.value.outcome.state.Keys == s.Keys + {c}
    ensures r.Success? ==> forall d :: d in s && d != c ==> r.value.outcome.state[d] == s[d]
    ensures r.Success? ==> NoDuplicates(r.value.displayed)
    ensures r.Success? ==> forall o :: o in r.value.displayed <==>
      (ui.query.Some? ==> Matches(o, ui.query.value)) &&
      exists row :: row in Filtered(t.rows, s) && c in row && row[c] == o
    ensures r.Success? ==> IsSubsequence(r.value.displayed, OptionsOf(Filtered(t.rows, s), c))
    ensures r.Success? ==> IsSubsequence(r.value.selection, r.value.displayed)
    ensures r.Success? ==> forall o :: o in r.value.selection <==>
      o in r.value.displayed && (o in ui.flipped) != Touch(s, c)[c].selectAll
    ensures r.Success? && ui.button == NoButton ==>
      r.value.outcome == Outcome(Touch(s, c), Proceed)
    ensures r.Success? && ui.button == ApplyButton && |r.value.selection| > 0 ==>
      r.value.outcome == Outcome(Touch(s, c)[c := Touch(s, c)[c].(selected := r.value.selection)], Rerun)
    ensures r.Success? && ui.button == ApplyButton && |r.value.selection| == 0 ==>
      r.value.outcome == Outcome(Touch(s, c), Warn(SelectAtLeastOne))
    ensures r.Success? && ui.button == AllButton ==>
      r.value.outcome == Outcome(Touch(s, c)[c := Touch(s, c)[c].(selectAll := !Touch(s, c)[c].selectAll)], Rerun)
    ensures r.Success? && ui.button == ClearButton ==>
      r.value.outcome == Outcome(Touch(s, c)[c := Fresh], Rerun)
  {
    var s1 := Touch(s, c);
    TouchKeepsView(t.rows, s, c);
    match View(t, s1)
    case Failure(e) => Failure(e)
    case Success(view) =>
      if c !in t.header then Failure(MissingColumn)
      else
        ViewHasColumns(t, s1, c);
        var displayed := Displayed(view, c, ui.query);
        var selection := Selection(displayed, Checks(displayed, s1[c].selectAll, ui.flipped));
        SelectionTicked(displayed, s1[c].selectAll, ui.flipped);
        Success(Step(displayed, selection, Press(s1, c, ui.button, selection)))
  }

  /** The options the form shows: the column's distinct values in the view,
      narrowed by the search. */
  function Displayed(view: seq<Row>, c: string, query: Option<string>): (r: seq<string>)
    requires HasColumn(view, c)
    ensures NoDuplicates(r)
    ensures IsSubsequence(r, OptionsOf(view, c))
    ensures forall o :: o in r <==>
      (query.Some? ==> Matches(o, query.value)) && exists row :: row in view && c in row && row[c] == o
  {
    var options := OptionsOf(view, c);
    forall o | o in options
      ensures exists row :: row in view && c in row && row[c] == o
    {
      var i :| 0 <= i < |view| && view[i][c] == o;
      assert view[i] in view;
    }
    Search(options, query)
  }

  /** The selection holds exactly the displayed options whose box ends ticked. */
  lemma SelectionTicked(displayed: seq<string>, selectAll: bool, flipped: set<string>)
    ensures forall o :: o in Selection(displayed, Checks(displayed, selectAll, flipped)) <==>
      o in displayed && (o in flipped) != selectAll
  {
    var checks := Checks(displayed, selectAll, flipped);
    forall o | o in displayed && (o in flipped) != selectAll
      ensures o in Selection(displayed, checks)
    {
      var i :| 0 <= i < |displayed| && displayed[i] == o;
      assert checks[i];
    }
  }

  /** The command run by the pressed button. */
  function Press(s1: State, c: string, button: Button, selection: seq<string>): (o: Outcome)
    requires c in s1
    ensures o.state.Keys == s1.Keys
    ensures forall d :: d in s1 && d != c ==> o.state[d] == s1[d]
    ensures Restricts(o.state[c]) ==> o.state[c].selected == selection || o.state[c].selected == s1[c].selected
  {
    match button
    case NoButton => Outcome(s1, Proceed)
    case ApplyButton => Apply(s1, c, selection)
    case AllButton => ToggleAll(s1, c)
    case ClearButton => Clear(s1, c)
  }

  /** With no interaction the shown options are every distinct value of the
      column in the current view (an absent or empty query) and the checkboxes
      are all ticked or all clear according to the select-all toggle. */
  lemma UntouchedFilterDefaults(t: Frame, s: State, c: string, query: Option<string>)
    requires Resolves(t.header, s) && c in t.header
    requires query == None || query == Some("")
    ensures var r := AddFilter(t, s, c, Interaction(query, {}, NoButton));
      && r.Success?
      && r.value.displayed == OptionsOf(Filtered(t.rows, s), c)
      && r.value.selection == (if Touch(s, c)[c].selectAll then r.value.displayed else [])
      && r.value.outcome == Outcome(Touch(s, c), Proceed)
  {
    var s1 := Touch(s, c);
    TouchKeepsView(t.rows, s, c);
    ViewHasColumns(t, s, c);
    var view := Filtered(t.rows, s);
    assert View(t, s1) == Success(view);
    var options := OptionsOf(view, c);
    if query == Some("") {
      EmptyQueryKeepsAll(options);
    }
    assert Search(options, query) == options;
    DefaultSelection(options, s1[c].selectAll);
    var r := AddFilter(t, s, c, Interaction(query, {}, NoButton));
    assert r == Success(Step(options, Selection(options, Checks(options, s1[c].selectAll, {})), Outcome(s1, Proceed)));
  }

  /** Applying a non-empty selection drawn from the shown options narrows the
      view to the rows of the current view whose value is selected, so it is
      never empty, and afterwards the column's own options are exactly the
      selection. */
  lemma AppliedSelectionNarrowsView(t: Frame, s: State, c: string, ui: Interaction)
    requires Resolves(t.header, s) && c in t.header && ui.button == ApplyButton
    ensures var step := AddFilter(t, s, c, ui).value;
      var before := Filtered(t.rows, s);
      var after := Filtered(t.rows, step.outcome.state);
      |step.selection| > 0 ==>
      && View(t, step.outcome.state) == Success(after)
      && after == Filter(before, (row: Row) => c in row && row[c] in step.selection)
      && |after| > 0
      && forall v :: v in step.selection <==> exists row :: row in after && c in row && row[c] == v
  {
    var step := AddFilter(t, s, c, ui).value;
    var sel := step.selection;
    if |sel| == 0 {
      return;
    }
    var s1 := Touch(s, c);
    TouchKeepsView(t.rows, s, c);
    assert step.outcome.state == s1[c := s1[c].(selected := sel)];
    assert forall v :: v in sel ==> v in step.displayed;
    ReselectFromView(t.rows, s1, c, sel);
    var after := Filtered(t.rows, step.outcome.state);
    assert sel[0] in sel;
  }

  /** The outcome of one panel run: the final state and whether a command
      asked for a rerun (which ends the run). */
  datatype PanelResult = PanelResult(state: State, rerun: bool)

  /** Show the listed columns' filters in order, each with its interaction,
      stopping at the first rerun request or error. */
  function AddFilters(t: Frame, s: State, columns: seq<string>, inputs: seq<Interaction>): (r: Result<PanelResult>)
    requires |inputs| == |columns|
    decreases |columns|
    ensures Resolves(t.header, s) && (forall c :: c in columns ==> c in t.header) ==> r.Success?
    ensures Resolves(t.header, s) && r.Success? ==> Resolves(t.header, r.value.state)
    ensures r.Success? && !r.value.rerun ==> forall c :: c in columns ==> c in r.value.state
    ensures r.Success? ==> forall d :: d in s && d !in columns ==> d in r.value.state && r.value.state[d] == s[d]
    ensures r.Success? ==> forall d :: d in r.value.state ==> d in s || d in columns
  {
    if |columns| == 0 then Success(PanelResult(s, false))
    else
      match AddFilter(t, s, columns[0], inputs[0])
      case Failure(e) => Failure(e)
      case Success(step) =>
        if step.outcome.signal == Rerun then Success(PanelResult(step.outcome.state, true))
        else
          var rest := AddFilters(t, step.outcome.state, columns[1..], inputs[1..]);
          assert forall c :: c in columns[1..] ==> c in columns;
          rest
  }

  /** A form whose command asks for no rerun (no button, or Apply with nothing
      ticked) only gives the column its entry; All and Clear always ask for one. */
  lemma QuietStep(t: Frame, s: State, c: string, ui: Interaction)
    ensures var r := AddFilter(t, s, c, ui);
      r.Success? && r.value.outcome.signal != Rerun ==>
        r.value.outcome.state == Touch(s, c) && ui.button != AllButton && ui.button != ClearButton
  {
  }

  /** Column `c`'s form, shown in state `s`, succeeded without asking for a rerun. */
  predicate QuietWith(t: Frame, s: State, c: string, ui: Interaction)
  {
    var step := AddFilter(t, s, c, ui);
    step.Success? && step.value.outcome.signal != Rerun
  }

  /** The forms of the first `i` columns, each shown with the entries the
      columns before it created, all succeeded without asking for a rerun: the
      run reached column `i`. */
  predicate QuietBefore(t: Frame, s: State, columns: seq<string>, inputs: seq<Interaction>, i: int)
    requires |inputs| == |columns| && 0 <= i <= |columns|
  {
    forall j :: 0 <= j < i ==> QuietWith(t, TouchAll(s, columns[..j]), columns[j], inputs[j])
  }

  /** The run reached column `i` and that column's command, shown with the
      entries the earlier columns created, asked for a rerun that left `state`:
      column `i` is the first whose form reruns. */
  predicate RerunAt(t: Frame, s: State, columns: seq<string>, inputs: seq<Interaction>, i: int, state: State)
  {
    && |inputs| == |columns| && 0 <= i < |columns|
    && QuietBefore(t, s, columns, inputs, i)
    && ReranWith(t, TouchAll(s, columns[..i]), columns[i], inputs[i], state)
  }

  /** The run reached column `i` and that column's form failed: column `i` is
      the first whose lookup raises. */
  predicate FailsAt(t: Frame, s: State, columns: seq<string>, inputs: seq<Interaction>, i: int)
  {
    && |inputs| == |columns| && 0 <= i < |columns|
    && QuietBefore(t, s, columns, inputs, i)
    && AddFilter(t, TouchAll(s, columns[..i]), columns[i], inputs[i]).Failure?
  }

  /** Column `c`'s form, shown in state `s`, asked for a rerun that left `state`. */
  predicate ReranWith(t: Frame, s: State, c: string, ui: Interaction, state: State)
  {
    var step := AddFilter(t, s, c, ui);
    step.Success? && step.value.outcome == Outcome(state, Rerun)
  }

  /** A run of the listed filters fails unless the state resolves and the
      first column exists. A run that ends without a rerun found every column
      and only created entries, so the view is unchanged. */
  lemma {:induction false} QuietRun(t: Frame, s: State, columns: seq<string>, inputs: seq<Interaction>)
    requires |inputs| == |columns|
    decreases |columns|
    ensures var r := AddFilters(t, s, columns, inputs);
      && (r.Success? && |columns| > 0 ==> Resolves(t.header, s) && columns[0] in t.header)
      && (r.Success? && !r.value.rerun ==>
           && r.value.state == TouchAll(s, columns)
           && Filtered(t.rows, r.value.state) == Filtered(t.rows, s)
           && forall c :: c in columns ==> c in t.header)
  {
    if |columns| > 0 && AddFilter(t, s, columns[0], inputs[0]).Success? {
      var step := AddFilter(t, s, columns[0], inputs[0]).value;
      QuietStep(t, s, columns[0], inputs[0]);
      if step.outcome.signal != Rerun {
        QuietRun(t, step.outcome.state, columns[1..], inputs[1..]);
        TouchKeepsView(t.rows, s, columns[0]);
        assert forall c :: c in columns ==> c == columns[0] || c in columns[1..];
      }
    }
  }

  /** Going past a quiet first column shifts every position by one: the
      entries created before column `k + 1` are those created in the rest
      before its column `k`, and the run that reached column `k` of the rest
      reached column `k + 1` of the whole list. */
  lemma QuietBeforeShift(t: Frame, s: State, columns: seq<string>, inputs: seq<Interaction>, k: int)
    requires |inputs| == |columns| && 0 <= k < |columns| - 1
    requires QuietWith(t, s, columns[0], inputs[0])
    requires QuietBefore(t, Touch(s, columns[0]), columns[1..], inputs[1..], k)
    ensures QuietBefore(t, s, columns, inputs, k + 1)
    ensures TouchAll(s, columns[..k + 1]) == TouchAll(Touch(s, columns[0]), columns[1..][..k])
    ensures columns[k + 1] == columns[1..][k] && inputs[k + 1] == inputs[1..][k]
  {
    TouchAllPrefix(s, columns, k + 1);
    forall j | 0 <= j < k + 1
      ensures QuietWith(t, TouchAll(s, columns[..j]), columns[j], inputs[j])
    {
      if j == 0 {
        assert columns[..0] == [];
      } else {
        TouchAllPrefix(s, columns, j);
        assert columns[j] == columns[1..][j - 1] && inputs[j] == inputs[1..][j - 1];
      }
    }
  }

  /** A run that ends in a rerun stopped at the command of one column reached
      with no earlier rerun, and its state is that command's. */
  lemma {:induction false} RerunRun(t: Frame, s: State, columns: seq<string>, inputs: seq<Interaction>)
    requires |inputs| == |columns|
    decreases |columns|
    ensures var r := AddFilters(t, s, columns, inputs);
      r.Success? && r.value.rerun ==> exists i :: RerunAt(t, s, columns, inputs, i, r.value.state)
  {
    if |columns| > 0 {
      var r := AddFilters(t, s, columns, inputs);
      QuietFirstStep(t, s, columns, inputs);
      if QuietFirst(t, s, columns, inputs) {
        RerunRun(t, Touch(s, columns[0]), columns[1..], inputs[1..]);
        if r.Success? && r.value.rerun {
          var k :| RerunAt(t, Touch(s, columns[0]), columns[1..], inputs[1..], k, r.value.state);
          QuietBeforeShift(t, s, columns, inputs, k);
          assert RerunAt(t, s, columns, inputs, k + 1, r.value.state);
        }
      } else if r.Success? {
        FirstRerun(t, s, columns, inputs);
      }
    }
  }

  /** A successful run whose first column is not quiet stopped at that column. */
  lemma FirstRerun(t: Frame, s: State, columns: seq<string>, inputs: seq<Interaction>)
    requires |inputs| == |columns| > 0
    requires !QuietFirst(t, s, columns, inputs) && AddFilters(t, s, columns, inputs).Success?
    ensures RerunAt(t, s, columns, inputs, 0, AddFilters(t, s, columns, inputs).value.state)
  {
    assert columns[..0] == [];
  }

  /** A run that fails stopped at the form of one column the run reached: an
      unknown column after a rerun is never looked up. */
  lemma {:induction false} FailedRun(t: Frame, s: State, columns: seq<string>, inputs: seq<Interaction>)
    requires |inputs| == |columns|
    decreases |columns|
    ensures AddFilters(t, s, columns, inputs).Failure? ==> exists i :: FailsAt(t, s, columns, inputs, i)
  {
    if |columns| > 0 {
      var r := AddFilters(t, s, columns, inputs);
      QuietFirstStep(t, s, columns, inputs);
      if QuietFirst(t, s, columns, inputs) {
        FailedRun(t, Touch(s, columns[0]), columns[1..], inputs[1..]);
        if r.Failure? {
          var k :| FailsAt(t, Touch(s, columns[0]), columns[1..], inputs[1..], k);
          QuietBeforeShift(t, s, columns, inputs, k);
          assert FailsAt(t, s, columns, inputs, k + 1);
        }
      } else if r.Failure? {
        FirstFail(t, s, columns, inputs);
      }
    }
  }

  /** A failed run whose first column is not quiet failed at that column. */
  lemma FirstFail(t: Frame, s: State, columns: seq<string>, inputs: seq<Interaction>)
    requires |inputs| == |columns| > 0
    requires !QuietFirst(t, s, columns, inputs) && AddFilters(t, s, columns, inputs).Failure?
    ensures FailsAt(t, s, columns, inputs, 0)
  {
    assert columns[..0] == [];
  }

  /** Pressing All or Clear in any listed column guarantees that a successful
      run ends in a rerun. */
  lemma {:induction false} ToggleOrClearReruns(t: Frame, s: State, columns: seq<string>, inputs: seq<Interaction>, i: int)
    requires |inputs| == |columns| && 0 <= i < |inputs|
    requires inputs[i].button == AllButton || inputs[i].button == ClearButton
    decreases |columns|
    ensures var r := AddFilters(t, s, columns, inputs);
      r.Success? ==> r.value.rerun
  {
    QuietFirstStep(t, s, columns, inputs);
    if QuietFirst(t, s, columns, inputs) {
      assert i != 0;
      var rest, later := columns[1..], inputs[1..];
      assert |later| == |rest| == |columns| - 1 && later[i - 1] == inputs[i];
      ToggleOrClearReruns(t, Touch(s, columns[0]), rest, later, i - 1);
    }
  }

  /** The first listed column's form succeeds without asking for a rerun. */
  predicate QuietFirst(t: Frame, s: State, columns: seq<string>, inputs: seq<Interaction>)
    requires |inputs| == |columns|
  {
    |columns| > 0 && QuietWith(t, s, columns[0], inputs[0])
  }

  /** After a quiet first column the run goes on from its entry creation; a
      first column that fails or asks for a rerun ends the run. */
  lemma QuietFirstStep(t: Frame, s: State, columns: seq<string>, inputs: seq<Interaction>)
    requires |inputs| == |columns| > 0
    ensures QuietFirst(t, s, columns, inputs) ==>
      && columns[0] in t.header
      && inputs[0].button != AllButton && inputs[0].button != ClearButton
      && AddFilters(t, s, columns, inputs) == AddFilters(t, Touch(s, columns[0]), columns[1..], inputs[1..])
    ensures !QuietFirst(t, s, columns, inputs) && AddFilters(t, s, columns, inputs).Success? ==>
      AddFilters(t, s, columns, inputs).value.rerun
  {
    QuietStep(t, s, columns[0], inputs[0]);
  }

  /** The panel: the Reset button wipes every entry before the filters are
      shown; then each listed column's filter runs. */
  function ShowFilterPanel(t: Frame, s: State, reset: bool, columns: seq<string>, inputs: seq<Interaction>): (r: Result<PanelResult>)
    requires |inputs| == |columns|
    ensures reset && r.Success? ==> forall d :: d in r.value.state ==> d in columns
    ensures !reset && r.Success? ==> forall d :: d in s && d !in columns ==> d in r.value.state && r.value.state[d] == s[d]
    ensures (reset || Resolves(t.header, s)) && (forall c :: c in columns ==> c in t.header) ==> r.Success?
    ensures (reset || Resolves(t.header, s)) && r.Success? ==> Resolves(t.header, r.value.state)
  {
    AddFilters(t, if reset then Reset() else s, columns, inputs)
  }

  /** The panel run ends as a run of the listed filters from its start state,
      the wiped state after Reset and the current one otherwise. After Reset a
      run that ends without a rerun shows the whole table. */
  lemma PanelRunEnds(t: Frame, s: State, reset: bool, columns: seq<string>, inputs: seq<Interaction>)
    requires |inputs| == |columns|
    ensures var s0 := if reset then Reset() else s;
      var r := ShowFilterPanel(t, s, reset, columns, inputs);
      && (r.Success? && |columns| > 0 ==> Resolves(t.header, s0) && columns[0] in t.header)
      && (r.Success? && !r.value.rerun ==>
           && r.value.state == TouchAll(s0, columns)
           && Filtered(t.rows, r.value.state) == Filtered(t.rows, s0)
           && forall c :: c in columns ==> c in t.header)
      && (reset && r.Success? && !r.value.rerun ==> Filtered(t.rows, r.value.state) == t.rows)
      && (r.Success? && r.value.rerun ==> exists i :: RerunAt(t, s0, columns, inputs, i, r.value.state))
      && (r.Failure? ==> exists i :: FailsAt(t, s0, columns, inputs, i))
      && (r.Success? && (exists i :: 0 <= i < |inputs| && (inputs[i].button == AllButton || inputs[i].button == ClearButton)) ==>
           r.value.rerun)
  {
    var s0 := if reset then Reset() else s;
    QuietRun(t, s0, columns, inputs);
    RerunRun(t, s0, columns, inputs);
    FailedRun(t, s0, columns, inputs);
    ResetShowsAll(t.rows);
    if i :| 0 <= i < |inputs| && (inputs[i].button == AllButton || inputs[i].button == ClearButton) {
      ToggleOrClearReruns(t, s0, columns, inputs, i);
    }
  }

  /** A run in which no form button is pressed leaves the view as it was. */
  lemma {:induction false} NoButtonsKeepView(t: Frame, s: State, columns: seq<string>, inputs: seq<Interaction>)
    requires |inputs| == |columns|
    requires forall i :: 0 <= i < |inputs| ==> inputs[i].button == NoButton
    ensures var r := AddFilters(t, s, columns, inputs);
      r.Success? ==> !r.value.rerun && Filtered(t.rows, r.value.state) == Filtered(t.rows, s)
    decreases |columns|
  {
    if |columns| > 0 && AddFilter(t, s, columns[0], inputs[0]).Success? {
      var step := AddFilter(t, s, columns[0], inputs[0]).value;
      assert step.outcome == Outcome(Touch(s, columns[0]), Proceed);
      TouchKeepsView(t.rows, s, columns[0]);
      assert forall i :: 0 <= i < |inputs[1..]| ==> inputs[1..][i] == inputs[i + 1];
      NoButtonsKeepView(t, step.outcome.state, columns[1..], inputs[1..]);
    }
  }

  /** Pressing Reset and nothing else shows the whole table again. */
  lemma ResetPanelShowsAll(t: Frame, s: State, columns: seq<string>, inputs: seq<Interaction>)
    requires |inputs| == |columns|
    requires forall i :: 0 <= i < |inputs| ==> inputs[i].button == NoButton
    ensures var r := ShowFilterPanel(t, s, true, columns, inputs);
      r.Success? ==> Filtered(t.rows, r.value.state) == t.rows
  {
    NoButtonsKeepView(t, Reset(), columns, inputs);
    ResetShowsAll(t.rows);
  }
}

=== FILE: seqs.dfy ===
/** Sequence building blocks of the filter engine: order-preserving filtering
    (boolean-mask row selection) and first-occurrence de-duplication (the
    `unique()` of a column). */
module Seqs {

  /** `a` is obtained from `b` by deleting elements without reordering the rest. */
  ghost predicate IsSubsequence<T>(a: seq<T>, b: seq<T>)
    decreases |b|
  {
    |a| == 0 || (|b| > 0 && ((a[0] == b[0] && IsSubsequence(a[1..], b[1..])) || IsSubsequence(a, b[1..])))
  }

  /** Every sequence is a subsequence of itself. */
  lemma {:induction false} SubsequenceRefl<T>(xs: seq<T>)
    ensures IsSubsequence(xs, xs)
  {
    if |xs| > 0 {
      SubsequenceRefl(xs[1..]);
    }
  }

  /** The elements of `xs` satisfying `p`, in their original order. */
  function Filter<T(!new)>(xs: seq<T>, p: T -> bool): (r: seq<T>)
    ensures |r| <= |xs|
    ensures forall x :: x in r <==> x in xs && p(x)
    ensures IsSubsequence(r, xs)
  {
    if |xs| == 0 then []
    else
      var rest := Filter(xs[1..], p);
      assert xs == [xs[0]] + xs[1..];
      if p(xs[0]) then
        assert ([xs[0]] + rest)[1..] == rest;
        [xs[0]] + rest
      else rest
  }

  /** Filtering keeps each element that satisfies the predicate as often as
      the input holds it, and drops every other. */
  lemma {:induction false} FilterMultiplicity<T(!new)>(xs: seq<T>, p: T -> bool)
    ensures forall x :: multiset(Filter(xs, p))[x] == if p(x) then multiset(xs)[x] else 0
  {
    if |xs| > 0 {
      FilterMultiplicity(xs[1..], p);
      assert xs == [xs[0]] + xs[1..];
    }
  }

  /** Filtering depends only on what the predicate says about the elements present. */
  lemma {:induction false} FilterExt<T(!new)>(xs: seq<T>, p: T -> bool, q: T -> bool)
    requires forall x :: x in xs ==> p(x) == q(x)
    ensures Filter(xs, p) == Filter(xs, q)
  {
    if |xs| > 0 {
      assert forall x :: x in xs[1..] ==> x in xs;
      FilterExt(xs[1..], p, q);
    }
  }

  /** A filter that keeps every element is the identity. */
  lemma {:induction false} FilterKeepsAll<T(!new)>(xs: seq<T>, p: T -> bool)
    requires forall x :: x in xs ==> p(x)
    ensures Filter(xs, p) == xs
  {
    if |xs| > 0 {
      assert forall x :: x in xs[1..] ==> x in xs;
      FilterKeepsAll(xs[1..], p);
    }
  }

  /** Two successive filters are one filter by the conjunction. */
  lemma {:induction false} FilterFilter<T(!new)>(xs: seq<T>, p: T -> bool, q: T -> bool, both: T -> bool)
    requires forall x :: x in xs ==> both(x) == (p(x) && q(x))
    ensures Filter(Filter(xs, p), q) == Filter(xs, both)
  {
    if |xs| > 0 {
      assert forall x :: x in xs[1..] ==> x in xs;
      FilterFilter(xs[1..], p, q, both);
      var rest := Filter(xs[1..], p);
      if p(xs[0]) {
        assert Filter(xs, p) == [xs[0]] + rest;
        assert ([xs[0]] + rest)[1..] == rest;
      } else {
        assert Filter(xs, p) == rest;
      }
    }
  }

  /** Filtering by a stronger predicate is filtering the weaker result again. */
  lemma FilterNarrows<T(!new)>(xs: seq<T>, p: T -> bool, q: T -> bool)
    requires forall x :: x in xs ==> q(x) ==> p(x)
    ensures Filter(xs, q) == Filter(Filter(xs, p), q)
  {
    FilterFilter(xs, p, q, q);
  }

  predicate NoDuplicates<T(==)>(xs: seq<T>)
  {
    forall i, j :: 0 <= i < j < |xs| ==> xs[i] != xs[j]
  }

  /** Filtering never introduces a duplicate. */
  lemma {:induction false} FilterNoDuplicates<T(!new)>(xs: seq<T>, p: T -> bool)
    ensures NoDuplicates(xs) ==> NoDuplicates(Filter(xs, p))
  {
    if |xs| > 0 && NoDuplicates(xs) {
      FilterNoDuplicates(xs[1..], p);
    }
  }

  /** Position of the first occurrence of `x` in `xs`. */
  function IndexOf<T(==)>(xs: seq<T>, x: T): (i: nat)
    requires x in xs
    ensures i < |xs| && xs[i] == x && x !in xs[..i]
  {
    if xs[0] == x then 0
    else
      assert x in xs[1..];
      var k := IndexOf(xs[1..], x);
      assert xs[..k + 1] == [xs[0]] + xs[1..][..k];
      1 + k
  }

  /** A first occurrence found in a prefix is the first occurrence in the whole. */
  lemma IndexOfPrefix<T>(xs: seq<T>, m: nat, x: T)
    requires m <= |xs| && x in xs[..m]
    ensures IndexOf(xs, x) == IndexOf(xs[..m], x)
  {
    var i := IndexOf(xs[..m], x);
    assert xs[..m][..i] == xs[..i];
  }

  /** The distinct elements of `xs`, each once, in order of first occurrence. */
  function Unique<T(==,!new)>(xs: seq<T>): (r: seq<T>)
    ensures NoDuplicates(r)
    ensures forall x :: x in r <==> x in xs
    ensures forall i, j :: 0 <= i < j < |r| ==> IndexOf(xs, r[i]) < IndexOf(xs, r[j])
  {
    if |xs| == 0 then []
    else
      var n := |xs| - 1;
      var front := xs[..n];
      var prefix := Unique(front);
      assert xs == front + [xs[n]];
      forall y | y in prefix
        ensures IndexOf(xs, y) == IndexOf(front, y) < n
      {
        IndexOfPrefix(xs, n, y);
      }
      if xs[n] in prefix then prefix
      else
        var r := prefix + [xs[n]];
        assert IndexOf(xs, xs[n]) == n;
        assert forall i :: 0 <= i < |prefix| ==> r[i] == prefix[i];
        r
  }
}

=== FILE: tables.dfy ===
/** The tabular data the filters run over, and the one error the engine can
    raise: looking up a column the table does not have (pandas' KeyError). */
module Tables {

  datatype Option<+T> = None | Some(value: T)

  datatype Error = MissingColumn

  datatype Result<+T> = Success(value: T) | Failure(error: Error)

  /** A row maps column names to cell values. */
  type Row = map<string, string>

  /** A data frame (`Table.df`): its column names and its rows, in order. */
  datatype DataFrame = DataFrame(header: set<string>, rows: seq<Row>)
  {
    /** Every row has a cell for exactly the table's columns. */
    predicate Rectangular()
    {
      forall row :: row in rows ==> row.Keys == header
    }
  }

  /** A rectangular data frame, as pandas guarantees. */
  type Frame = t: DataFrame | t.Rectangular() witness DataFrame({}, [])

  /** Every row of `rows` has a cell in column `c`. */
  predicate HasColumn(rows: seq<Row>, c: string)
  {
    forall row :: row in rows ==> c in row
  }

  /** The cells of column `c`, one per row, in row order (`df[c]`). */
  function ColumnValues(rows: seq<Row>, c: string): seq<string>
    requires HasColumn(rows, c)
  {
    seq(|rows|, i requires 0 <= i < |rows| => rows[i][c])
  }
}

=== FILE: text.dfy ===
/** The case-insensitive substring search behind a filter's search box:
    `query.lower() in option.lower()`, with lower-casing restricted to ASCII. */
module Text {

  predicate IsUpper(c: char)
  {
    'A' <= c <= 'Z'
  }

  function LowerChar(c: char): char
  {
    if IsUpper(c) then (c as int - 'A' as int + 'a' as int) as char else c
  }

  /** ASCII lower-casing: same length, no upper-case letter left, and every
      character that was not an upper-case letter kept as it was. */
  function Lower(s: string): (r: string)
    ensures |r| == |s|
    ensures forall i :: 0 <= i < |r| ==> !IsUpper(r[i])
    ensures forall i :: 0 <= i < |s| && !IsUpper(s[i]) ==> r[i] == s[i]
    ensures forall i :: 0 <= i < |s| && IsUpper(s[i]) ==> r[i] as int == s[i] as int + 32
  {
    seq(|s|, i requires 0 <= i < |s| => LowerChar(s[i]))
  }

  /** Lower-casing twice is lower-casing once. */
  lemma LowerIdempotent(s: string)
    ensures Lower(Lower(s)) == Lower(s)
  {
  }

  /** `needle` occurs in `hay` starting at position `i`. */
  predicate OccursAt(hay: string, needle: string, i: nat)
  {
    i + |needle| <= |hay| && hay[i..i + |needle|] == needle
  }

  /** Python's `needle in hay` for strings, by scanning start positions. */
  predicate Contains(hay: string, needle: string)
    decreases |hay|
  {
    (|needle| <= |hay| && hay[..|needle|] == needle) || (|hay| > 0 && Contains(hay[1..], needle))
  }

  /** The scan finds exactly the positions where the needle occurs. */
  lemma {:induction false} ContainsIff(hay: string, needle: string)
    ensures Contains(hay, needle) <==> exists i: nat :: OccursAt(hay, needle, i)
    decreases |hay|
  {
    if |needle| <= |hay| && hay[..|needle|] == needle {
      assert OccursAt(hay, needle, 0);
    } else if |hay| > 0 {
      ContainsIff(hay[1..], needle);
      if Contains(hay[1..], needle) {
        var i: nat :| OccursAt(hay[1..], needle, i);
        assert hay[1..][i..i + |needle|] == hay[i + 1..i + 1 + |needle|];
        assert OccursAt(hay, needle, i + 1);
      }
      if i: nat :| OccursAt(hay, needle, i) {
        assert i != 0;
        assert hay[1..][i - 1..i - 1 + |needle|] == hay[i..i + |needle|];
        assert OccursAt(hay[1..], needle, i - 1);
      }
    }
  }

  /** The empty string occurs in every string. */
  lemma EmptyOccurs(hay: string)
    ensures Contains(hay, "")
  {
    assert hay[..0] == "";
  }

  /** Whether an option survives a search query, ignoring (ASCII) case. */
  predicate Matches(option: string, query: string)
  {
    Contains(Lower(option), Lower(query))
  }

  /** Matching ignores case on both sides: lower-casing either argument first changes nothing. */
  lemma MatchesIgnoresCase(option: string, query: string)
    ensures Matches(option, query) <==> Matches(Lower(option), query)
    ensures Matches(option, query) <==> Matches(option, Lower(query))
  {
    LowerIdempotent(option);
    LowerIdempotent(query);
  }

  /** A match means the lower-cased query literally occurs in the lower-cased option. */
  lemma MatchesMeansOccurs(option: string, query: string)
    ensures Matches(option, query) <==> exists i: nat :: OccursAt(Lower(option), Lower(query), i)
  {
    ContainsIff(Lower(option), Lower(query));
  }
}
